=== FILE: README.md ===
# email-scheduler, modelled in Dafny

This project models the core of a small message-scheduling service. Clients
store e-mail messages that carry an optional target send time. A periodic task
takes a snapshot of the store, announces every message that is due, and marks
those messages as sent in the store.

- `options.dfy` (`Options`): `Option<T>` and `Result<T>`. These are the Rust
  `Option` and `Result<_, std::fmt::Error>` the service returns.
- `message.dfy` (`Messages`): the `Message` record. Every field except `email`
  is optional. Timestamps are integers and ids are strings.
- `database.dfy` (`Database`): the in-memory store. The store is a
  `seq<Message>`. Each store method is a pure function that returns
  `Step(newStore, result)`. This matches the service, where every method locks
  the whole vector for its full run, so each one is a single atomic
  transformation. The UUID and the clock that `create_message` reads are
  parameters (`freshId`, `now`).
- `email_service.dfy` (`EmailService`): the dispatcher,
  `send_scheduled_emails`. `Dispatch` is one iteration of the loop over the snapshot. `Tick` folds
  `Dispatch` over the snapshot and threads the live store through it. It returns
  the new store and the mail announced, in order. One `Envelope` stands for each
  announcement (`println!`) that takes the place of delivery.

The id invariant `ValidIds` says every entry has an id and no two ids are
equal. Update, delete and mark preserve it unconditionally. Create preserves it
when the new id is fresh. The source never checks freshness: it relies on
random UUIDs. So freshness is a precondition of the lemma, not of
`CreateMessage`.

Behaviour of the code worth knowing:

- `update_message_as_sent` does not flip a flag in place. It writes the
  record it was passed back over the first match, with `send = Some(true)`
  (src/repository/database.rs:68-76). The dispatcher passes its snapshot copy.
  `TickOverwritesUpdateSinceSnapshot` shows the consequence. Suppose an update
  lands between the snapshot and the tick, and the message is due. The tick
  then overwrites that update with the stale snapshot.
- The dispatcher calls `update_message_as_sent(id, message)` with two
  arguments (src/services/email_service.rs:17). The store method takes one
  argument (src/repository/database.rs:66). The model uses the store method's
  semantics: match on the argument's id and write back the argument.
- Update is a full replace (src/repository/database.rs:47-54). So it can
  reset `send` from `Some(true)` to `Some(false)` or `None`, as
  `UpdateMessageById` states.
- A due message without an id is announced but never marked. So it would be
  announced again on every tick (`UnidentifiedMessageLeavesStore`). No store
  operation can produce such an entry, because create, update and mark always
  write an id.

## Model

| member | source | states |
|---|---|---|
| Database.FirstMatch | src/repository/database.rs:51-53 | The scan finds the first position whose id is `Some(key)`. It returns none exactly when no entry carries that id. |
| Database.GetMessages | src/repository/database.rs:17-20 | Listing returns the whole collection in insertion order and changes nothing. |
| Database.GetMessageById | src/repository/database.rs:22-28 | A lookup returns the first entry whose id is `Some(id)`, or none exactly when no entry carries it. The store is unchanged. |
| Database.CreateMessage | src/repository/database.rs:30-43 | Create always succeeds. The result has id `Some(freshId)`, `created_at = Some(now)` and `send = Some(false)`, whatever the draft held for those fields. Email, body and send time are copied from the draft. The result is appended after all earlier entries, which are unchanged and in order. |
| Database.UpdateMessageById | src/repository/database.rs:45-56 | With no match, update returns none and leaves the store unchanged. Otherwise it replaces the first match with the draft, with the id forced to the path id. This is a full replace, so `send` and `created_at` come from the draft. It returns that record. Length, every id and every other entry are unchanged. |
| Database.DeleteMessageById | src/repository/database.rs:58-64 | With no match, delete returns none and leaves the store unchanged. Otherwise it removes and returns the first match. Length drops by one, the remaining entries keep their order, and the multiset loses exactly that record. |
| Database.UpdateMessageAsSent | src/repository/database.rs:66-78 | Mark returns none with no change when the argument has no id or its id matches no entry. Otherwise the first match becomes the argument itself with `send = Some(true)`, and that record is returned. Ids and all other entries are unchanged. |
| Database.UnidentifiedEntryUnreachable | src/models/message.rs:7 | An entry whose id is absent is never returned by a lookup. No update or mark ever overwrites it. |
| Database.CreatePreservesValidIds | src/repository/database.rs:30-42 | Creating under a fresh id keeps every id present and pairwise distinct. |
| Database.UpdatePreservesValidIds | src/repository/database.rs:45-56 | Update keeps every id present and pairwise distinct, because it writes back the path id of the entry it replaces. |
| Database.DeletePreservesValidIds | src/repository/database.rs:58-64 | Delete keeps every remaining id present and pairwise distinct. |
| Database.MarkPreservesValidIds | src/repository/database.rs:66-78 | Mark keeps every id present and pairwise distinct, because it writes back the matched id. |
| Database.CreatedMessageIsFound | src/repository/database.rs:22-42 | After a create under a fresh id, a lookup of that id returns exactly the created record. |
| Database.UpdatedMessageIsFound | src/repository/database.rs:45-56 | After a successful update, a lookup of the path id returns the updated record. Its id is the path id even if the draft carried another. |
| Database.DeletedMessageIsGone | src/repository/database.rs:58-64 | With distinct ids, a deleted id is no longer found, and deleting it a second time returns none. |
| Database.MarkedMessageIsFound | src/repository/database.rs:66-78 | After a successful mark, a lookup of the id returns the record flagged as sent. |
| EmailService.EnvelopeFor | src/services/email_service.rs:11-15 | The outgoing mail goes to the message's email. Its text is the body if present, otherwise the empty string. |
| EmailService.ThreeValuedSend | src/models/message.rs:12 | For a scheduled message whose time has passed, `send = None` and `send = Some(false)` both make it due. Only `Some(true)` stops it. |
| EmailService.DueOnly | src/services/email_service.rs:7-9 | The filter keeps no more messages than the snapshot holds, and every kept message is due. A due message has a send time that has passed and is not flagged as sent. |
| EmailService.DueOnlyMembers | src/services/email_service.rs:7-9 | Every kept message comes from the snapshot, and every due snapshot message is kept. |
| EmailService.DueOnlyCounts | src/services/email_service.rs:7-9 | A due message is kept as many times as the snapshot holds it, and a message that is not due is never kept. |
| EmailService.DueOnlySingleton | src/services/email_service.rs:7-9 | A single message is kept exactly when it is due. |
| EmailService.DueOnlyAppend | src/services/email_service.rs:6-9 | Filtering a concatenation is the concatenation of the filtered parts, so the kept messages stay in snapshot order. |
| EmailService.Envelopes | src/services/email_service.rs:11-15 | A list of announcements has one envelope per message, in the same order. |
| EmailService.Dispatch | src/services/email_service.rs:7-21 | One loop iteration announces the message exactly when it is due. It changes the store only when the message is due and has an id, and then only through mark-as-sent. Every entry either stays the same or becomes that message flagged as sent. |
| EmailService.Tick | src/services/email_service.rs:5-24 | A tick never adds, removes or moves entries, never changes an id and never clears a sent flag. |
| EmailService.TickMail | src/services/email_service.rs:6-15 | A tick's mail is one envelope per due snapshot message, in snapshot order, and nothing else. |
| EmailService.UndueMessageInvisible | src/services/email_service.rs:6-22 | A message that is not due, anywhere in the snapshot, changes neither the store nor the mail. |
| EmailService.UnidentifiedMessageLeavesStore | src/services/email_service.rs:16-18 | A due message without an id never changes the store. |
| EmailService.UnscheduledNeverDispatched | src/services/email_service.rs:7 | A message without a send time has no effect on any tick, at any clock value. |
| EmailService.SentNeverRedispatched | src/services/email_service.rs:9 | A message flagged as sent is never announced or re-marked, at any clock value. |
| EmailService.NothingDueIsNoOp | src/services/email_service.rs:5-24 | When no snapshot message is due, the tick leaves the store unchanged and sends no mail. |
| EmailService.NothingMarkableKeepsStore | src/services/email_service.rs:16-18 | When every due snapshot message lacks an id, the tick leaves the store unchanged. |
| EmailService.TickWritesOnlyDueCopies | src/services/email_service.rs:5-24 | After a tick, every entry is either unchanged or is a due snapshot message with the same id, flagged as sent. |
| EmailService.TickLeavesOthersUnchanged | src/services/email_service.rs:5-24 | Entries whose id matches no due snapshot message are unchanged by the tick. |
| EmailService.MarkedAtFirstMatch | src/services/email_service.rs:16-17 | Marking the head of the snapshot puts it, flagged as sent, at the position where the tick's result finds its id. |
| EmailService.TickMarksDue | src/services/email_service.rs:9-18 | After a tick, for every due snapshot message whose id is still in the store, the entry a lookup finds for that id is flagged as sent. |
| EmailService.TickWritesSnapshotCopy | src/repository/database.rs:68-76 | With distinct snapshot ids, that entry is exactly the snapshot message with `send = Some(true)`, whatever the store held before. |
| EmailService.TickOnOwnSnapshot | src/main.rs:37-38 | A tick over a fresh snapshot of its own store (distinct ids) flags every due entry that has an id as sent and changes nothing else. Its mail is the envelopes of the due entries. |
| EmailService.OwnSnapshotLeavesNothingMarkable | src/main.rs:37-38 | After such a tick, no entry that has an id is still due. |
| EmailService.TickIdempotent | src/main.rs:35-39 | A second tick at the same instant over a fresh snapshot leaves the store unchanged. When every entry has an id, it also sends nothing. |
| EmailService.TickPreservesValidIds | src/services/email_service.rs:16-18 | A tick keeps every id present and pairwise distinct. |
| EmailService.TickOverwritesUpdateSinceSnapshot | src/repository/database.rs:68-76 | Suppose an update lands between the snapshot and the tick, and the message is due. The entry then becomes the pre-update snapshot flagged as sent, and the update is lost. |

## Left out

- HTTP layer (`src/api/api.rs`): routing and JSON marshaling only forward to the store. Three of the methods it calls (`get_message`, `update_message`, `delete_message`) do not exist on the store, so the store methods are modelled directly.
- Periodic task and server start-up (`src/main.rs`): the 10-second interval, task spawning, and the health and not-found handlers. One tick is one call of `Tick`. The lemmas about a fresh snapshot model lines 37-38.
- Mutex and `lock().unwrap()`: each store method is one atomic transition. Interleavings of API calls with a running tick are not modelled, beyond passing a snapshot that may differ from the live store.
- UUID generation and `Utc::now()`: these are parameters. Freshness of ids is a precondition of `CreatePreservesValidIds` and `CreatedMessageIsFound`.
- Tick: the dispatcher reads `Utc::now()` once for each scheduled message. The model uses one `now` for the whole tick.
- Logging and delivery: mail delivery is not implemented in the source and cannot fail there. The model records the announced mail as `Envelope`s and has no failure or retry path.
- Mail credentials (`src/models/config.rs`): the credential struct is never used.
- Timestamps: these are integers. Only their order matters to the code.

=== FILE: database.dfy ===
/** The in-memory message store. The service keeps a vector behind a mutex and
    every method holds the lock for its whole run, so each method is one atomic
    transformation of a sequence: it takes the current store and returns the new
    store together with the method's return value. */
module Database {
  import opened Options
  import opened Messages

  /** The message vector; positions follow insertion order. */
  type Store = seq<Message>

  /** The store after an operation, and what the operation returned. */
  datatype Step<T> = Step(store: Store, result: T)

  /** No entry of `store` carries the id `key`. */
  predicate KeyAbsent(store: Store, key: Id) {
    forall j :: 0 <= j < |store| ==> !HasId(store[j], key)
  }

  /** `i` is the position a linear `find`/`position` stops at: the first
      entry whose id is `Some(key)`. */
  predicate IsFirstMatch(store: Store, key: Id, i: int) {
    && 0 <= i < |store|
    && HasId(store[i], key)
    && forall j :: 0 <= j < i ==> !HasId(store[j], key)
  }

  /** Every entry carries an id. */
  predicate AllIdsPresent(store: Store) {
    forall j :: 0 <= j < |store| ==> store[j].id.Some?
  }

  /** No two entries carry the same (present) id. */
  predicate DistinctIds(store: Store) {
    forall i, j :: 0 <= i < j < |store| && store[i].id.Some? ==> store[i].id != store[j].id
  }

  /** The store's id invariant: every id present and pairwise distinct. */
  predicate ValidIds(store: Store) {
    AllIdsPresent(store) && DistinctIds(store)
  }

  /** The linear scan shared by every id-based method. */
  function FirstMatch(store: Store, key: Id): (r: Option<nat>)
    ensures r.Some? ==> IsFirstMatch(store, key, r.value)
    ensures r.None? <==> KeyAbsent(store, key)
  {
    if |store| == 0 then None
    else if HasId(store[0], key) then Some(0)
    else
      match FirstMatch(store[1..], key)
      case None =>
        assert forall j :: 0 < j < |store| ==> store[j] == store[1..][j - 1];
        None
      case Some(i) => Some(i + 1)
  }

  /** A store holds at most one first match for a key. */
  lemma FirstMatchUnique(store: Store, key: Id, i: int, j: int)
    requires IsFirstMatch(store, key, i) && IsFirstMatch(store, key, j)
    ensures i == j
  {
  }

  /** Two stores with the same ids at the same positions agree on every lookup. */
  lemma SameIdsSameMatches(a: Store, b: Store, key: Id, i: int)
    requires |a| == |b|
    requires forall j :: 0 <= j < |a| ==> a[j].id == b[j].id
    ensures IsFirstMatch(a, key, i) <==> IsFirstMatch(b, key, i)
  {
  }

  /** `get_messages`: a copy of the whole collection, in insertion order. */
  function GetMessages(store: Store): (r: Step<seq<Message>>)
    ensures r.store == store
    ensures r.result == store
  {
    Step(store, store)
  }

  /** `get_message_by_id`: the first entry whose id is `Some(id)`, if any. */
  function GetMessageById(store: Store, id: Id): (r: Step<Option<Message>>)
    ensures r.store == store
    ensures r.result.None? <==> KeyAbsent(store, id)
    ensures r.result.Some? ==> exists i :: IsFirstMatch(store, id, i) && r.result.value == store[i]
  {
    match FirstMatch(store, id)
    case None => Step(store, None)
    case Some(i) => Step(store, Some(store[i]))
  }

  /** `create_message`: the id, creation time and sent flag the caller supplied
      are overwritten; `freshId` and `now` stand for the UUID and the clock. The
      method never fails. */
  function CreateMessage(store: Store, draft: Message, freshId: Id, now: Timestamp): (r: Step<Result<Message>>)
    ensures r.result.Ok?
    ensures r.result.value.id == Some(freshId)
    ensures r.result.value.createdAt == Some(now)
    ensures r.result.value.send == Some(false)
    ensures r.result.value.email == draft.email
    ensures r.result.value.messageBody == draft.messageBody
    ensures r.result.value.sendAt == draft.sendAt
    ensures |r.store| == |store| + 1
    ensures r.store[..|store|] == store
    ensures r.store[|store|] == r.result.value
  {
    var message := draft.(id := Some(freshId), createdAt := Some(now), send := Some(false));
    Step(store + [message], Ok(message))
  }

  /** `update_message_by_id`: a full replace of the first matching entry by the
      draft, whose id is forced to the path id. */
  function UpdateMessageById(store: Store, id: Id, draft: Message): (r: Step<Option<Message>>)
    ensures r.result.None? <==> KeyAbsent(store, id)
    ensures r.result.None? ==> r.store == store
    ensures r.result.Some? ==> r.result.value == draft.(id := Some(id))
    ensures |r.store| == |store|
    ensures forall j :: 0 <= j < |store| ==> r.store[j].id == store[j].id
    ensures r.result.Some? ==>
      exists i :: IsFirstMatch(store, id, i) && r.store == store[i := r.result.value]
  {
    var message := draft.(id := Some(id));
    match FirstMatch(store, id)
    case None => Step(store, None)
    case Some(i) => Step(store[i := message], Some(message))
  }

  /** `delete_message_by_id`: removes and returns the first matching entry. */
  function DeleteMessageById(store: Store, id: Id): (r: Step<Option<Message>>)
    ensures r.result.None? <==> KeyAbsent(store, id)
    ensures r.result.None? ==> r.store == store
    ensures r.result.Some? ==>
      && |r.store| == |store| - 1
      && multiset(r.store) + multiset{r.result.value} == multiset(store)
    ensures r.result.Some? ==>
      exists i :: && IsFirstMatch(store, id, i)
                  && r.result.value == store[i]
                  && r.store == store[..i] + store[i + 1..]
  {
    match FirstMatch(store, id)
    case None => Step(store, None)
    case Some(i) =>
      assert store == store[..i] + [store[i]] + store[i + 1..];
      Step(store[..i] + store[i + 1..], Some(store[i]))
  }

  /** `update_message_as_sent`: the first entry whose id equals the argument's
      id is replaced by the argument itself with `send = Some(true)`. The stored
      record's other fields are not consulted. */
  function UpdateMessageAsSent(store: Store, message: Message): (r: Step<Option<Message>>)
    ensures r.result.None? <==> message.id.None? || KeyAbsent(store, message.id.value)
    ensures r.result.None? ==> r.store == store
    ensures r.result.Some? ==> r.result.value == message.(send := Some(true))
    ensures r.result.Some? ==> IsSent(r.result.value)
    ensures |r.store| == |store|
    ensures forall j :: 0 <= j < |store| ==> r.store[j].id == store[j].id
    ensures r.result.Some? ==>
      exists i :: IsFirstMatch(store, message.id.value, i) && r.store == store[i := r.result.value]
  {
    match message.id
    case None => Step(store, None)
    case Some(key) =>
      var marked := message.(id := Some(key), send := Some(true));
      match FirstMatch(store, key)
      case None => Step(store, None)
      case Some(i) => Step(store[i := marked], Some(marked))
  }

  /** An entry without an id is out of reach of every id-based method: no lookup
      returns it, and no update or mark overwrites it. */
  lemma UnidentifiedEntryUnreachable(store: Store, j: int, id: Id, draft: Message, message: Message)
    requires 0 <= j < |store| && store[j].id.None?
    ensures GetMessageById(store, id).result != Some(store[j])
    ensures UpdateMessageById(store, id, draft).store[j] == store[j]
    ensures UpdateMessageAsSent(store, message).store[j] == store[j]
  {
    var u := UpdateMessageById(store, id, draft);
    if u.result.Some? {
      var i :| IsFirstMatch(store, id, i) && u.store == store[i := u.result.value];
      assert i != j;
    }
    var m := UpdateMessageAsSent(store, message);
    if m.result.Some? {
      var i :| IsFirstMatch(store, message.id.value, i) && m.store == store[i := m.result.value];
      assert i != j;
    }
  }

  // ---------------------------------------------------------------------------
  // The id invariant
  // ---------------------------------------------------------------------------

  /** Creating with an id no entry carries keeps every id present and distinct. */
  lemma CreatePreservesValidIds(store: Store, draft: Message, freshId: Id, now: Timestamp)
    requires ValidIds(store)
    requires KeyAbsent(store, freshId)
    ensures ValidIds(CreateMessage(store, draft, freshId, now).store)
  {
    var s := CreateMessage(store, draft, freshId, now).store;
    forall i, j | 0 <= i < j < |s| && s[i].id.Some?
      ensures s[i].id != s[j].id
    {
      assert s[i] == store[i];
      if j < |store| {
        assert s[j] == store[j];
      } else {
        assert !HasId(store[i], freshId);
      }
    }
  }

  /** Updating writes back the id of the entry it replaces. */
  lemma UpdatePreservesValidIds(store: Store, id: Id, draft: Message)
    requires ValidIds(store)
    ensures ValidIds(UpdateMessageById(store, id, draft).store)
  {
    var s := UpdateMessageById(store, id, draft).store;
    assert forall j :: 0 <= j < |s| ==> s[j].id == store[j].id;
  }

  /** Deleting an entry keeps the remaining ids present and distinct. */
  lemma DeletePreservesValidIds(store: Store, id: Id)
    requires ValidIds(store)
    ensures ValidIds(DeleteMessageById(store, id).store)
  {
    var d := DeleteMessageById(store, id);
    if d.result.Some? {
      var i :| IsFirstMatch(store, id, i) && d.store == store[..i] + store[i + 1..];
      assert forall j :: 0 <= j < |d.store| ==> d.store[j] == store[if j < i then j else j + 1];
    }
  }

  /** Marking as sent writes back the id of the entry it replaces. */
  lemma MarkPreservesValidIds(store: Store, message: Message)
    requires ValidIds(store)
    ensures ValidIds(UpdateMessageAsSent(store, message).store)
  {
    var s := UpdateMessageAsSent(store, message).store;
    assert forall j :: 0 <= j < |s| ==> s[j].id == store[j].id;
  }

  // ---------------------------------------------------------------------------
  // Lookups after mutations
  // ---------------------------------------------------------------------------

  /** A message created under a fresh id is what a lookup of that id returns. */
  lemma CreatedMessageIsFound(store: Store, draft: Message, freshId: Id, now: Timestamp)
    requires KeyAbsent(store, freshId)
    ensures var c := CreateMessage(store, draft, freshId, now);
      GetMessageById(c.store, freshId).result == Some(c.result.value)
  {
    var c := CreateMessage(store, draft, freshId, now);
    assert IsFirstMatch(c.store, freshId, |store|) by {
      forall j | 0 <= j < |store| ensures !HasId(c.store[j], freshId) {
        assert c.store[j] == store[j];
      }
    }
    var g := GetMessageById(c.store, freshId);
    var i :| IsFirstMatch(c.store, freshId, i) && g.result.value == c.store[i];
    FirstMatchUnique(c.store, freshId, i, |store|);
  }

  /** After a successful update, a lookup of the path id returns the updated
      record, whose id is the path id whatever the draft carried. */
  lemma UpdatedMessageIsFound(store: Store, id: Id, draft: Message)
    ensures var u := UpdateMessageById(store, id, draft);
      u.result.Some? ==> GetMessageById(u.store, id).result == u.result && u.result.value.id == Some(id)
  {
    var u := UpdateMessageById(store, id, draft);
    if u.result.Some? {
      var i :| IsFirstMatch(store, id, i) && u.store == store[i := u.result.value];
      assert IsFirstMatch(u.store, id, i);
      var g := GetMessageById(u.store, id);
      var k :| IsFirstMatch(u.store, id, k) && g.result.value == u.store[k];
      FirstMatchUnique(u.store, id, i, k);
    }
  }

  /** With distinct ids, a deleted id can no longer be found, and deleting it
      again returns nothing. */
  lemma DeletedMessageIsGone(store: Store, id: Id)
    requires DistinctIds(store)
    ensures var d := DeleteMessageById(store, id);
      GetMessageById(d.store, id).result.None? && DeleteMessageById(d.store, id).result.None?
  {
    var d := DeleteMessageById(store, id);
    if d.result.Some? {
      var i :| IsFirstMatch(store, id, i) && d.store == store[..i] + store[i + 1..];
      forall j | 0 <= j < |d.store| ensures !HasId(d.store[j], id) {
        if j < i {
          assert d.store[j] == store[j];
        } else {
          assert d.store[j] == store[j + 1];
        }
      }
    }
  }

  /** After a successful mark, a lookup of the id returns the marked record. */
  lemma MarkedMessageIsFound(store: Store, message: Message)
    ensures var m := UpdateMessageAsSent(store, message);
      m.result.Some? ==> GetMessageById(m.store, message.id.value).result == m.result
  {
    var m := UpdateMessageAsSent(store, message);
    if m.result.Some? {
      var key := message.id.value;
      var i :| IsFirstMatch(store, key, i) && m.store == store[i := m.result.value];
      assert IsFirstMatch(m.store, key, i);
      var g := GetMessageById(m.store, key);
      var k :| IsFirstMatch(m.store, key, k) && g.result.value == m.store[k];
      FirstMatchUnique(m.store, key, i, k);
    }
  }
}

=== FILE: email_service.dfy ===
/** The due-message dispatcher: one tick walks a snapshot of the store, announces
    every due message and marks the ones with an id as sent in the live store. */
module EmailService {
  import opened Options
  import opened Messages
  import opened Database

  /** A message is due when its send time is present and has passed and it is
      not flagged as sent. */
  predicate IsDue(m: Message, now: Timestamp) {
    match m.sendAt
    case None => false
    case Some(t) => t <= now && !IsSent(m)
  }

  /** What a tick hands to the mailer for one message: recipient and text. */
  datatype Envelope = Envelope(to: string, body: string)

  /** One tick's effect: the live store afterwards and the mail announced, in order. */
  datatype TickResult = TickResult(store: Store, mail: seq<Envelope>)

  /** The mail for a message: its recipient, and its body or the empty text. */
  function EnvelopeFor(m: Message): (e: Envelope)
    ensures e.to == m.email
    ensures m.messageBody.Some? ==> e.body == m.messageBody.value
    ensures m.messageBody.None? ==> e.body == ""
  {
    Envelope(m.email, m.messageBody.GetOr(""))
  }

  /** The three values of `send`: absent and `false` are both unsent, so only
      `Some(true)` keeps a scheduled, past message from being due. */
  lemma ThreeValuedSend(m: Message, now: Timestamp)
    requires m.sendAt.Some? && m.sendAt.value <= now
    ensures m.send.None? ==> IsDue(m, now)
    ensures m.send == Some(false) ==> IsDue(m, now)
    ensures m.send == Some(true) ==> !IsDue(m, now)
  {
  }

  /** The due messages of a snapshot, in snapshot order. */
  function DueOnly(snapshot: seq<Message>, now: Timestamp): (r: seq<Message>)
    ensures |r| <= |snapshot|
    ensures forall i :: 0 <= i < |r| ==> IsDue(r[i], now)
  {
    if |snapshot| == 0 then []
    else
      (if IsDue(snapshot[0], now) then [snapshot[0]] else []) + DueOnly(snapshot[1..], now)
  }

  /** The filter keeps every due message as often as the snapshot holds it, and
      nothing else. */
  lemma {:induction false} DueOnlyCounts(snapshot: seq<Message>, now: Timestamp, m: Message)
    ensures multiset(DueOnly(snapshot, now))[m] == if IsDue(m, now) then multiset(snapshot)[m] else 0
    decreases |snapshot|
  {
    if |snapshot| > 0 {
      DueOnlyCounts(snapshot[1..], now, m);
      assert snapshot == [snapshot[0]] + snapshot[1..];
      var first := if IsDue(snapshot[0], now) then [snapshot[0]] else [];
      assert multiset(first + DueOnly(snapshot[1..], now)) == multiset(first) + multiset(DueOnly(snapshot[1..], now));
    }
  }

  /** Every kept message comes from the snapshot, and every due snapshot message
      is kept. */
  lemma DueOnlyMembers(snapshot: seq<Message>, now: Timestamp)
    ensures forall m :: m in DueOnly(snapshot, now) ==> m in snapshot
    ensures forall i :: 0 <= i < |snapshot| && IsDue(snapshot[i], now) ==> snapshot[i] in DueOnly(snapshot, now)
  {
    forall m | m in DueOnly(snapshot, now) ensures m in snapshot {
      DueOnlyCounts(snapshot, now, m);
    }
    forall i | 0 <= i < |snapshot| && IsDue(snapshot[i], now)
      ensures snapshot[i] in DueOnly(snapshot, now)
    {
      DueOnlyCounts(snapshot, now, snapshot[i]);
    }
  }

  /** A single message is kept exactly when it is due. */
  lemma DueOnlySingleton(m: Message, now: Timestamp)
    ensures DueOnly([m], now) == if IsDue(m, now) then [m] else []
  {
    assert [m][1..] == [];
  }

  /** Proof helper for `DueOnlyAppend`: unfolds `DueOnly` once, so the append
      proof can apply it to `a + b` without the solver searching for it. */
  lemma DueOnlyUnfold(s: seq<Message>, now: Timestamp)
    requires |s| > 0
    ensures DueOnly(s, now) == (if IsDue(s[0], now) then [s[0]] else []) + DueOnly(s[1..], now)
  {
  }

  /** Filtering distributes over concatenation, so the kept messages stay in
      snapshot order. */
  lemma {:induction false} DueOnlyAppend(a: seq<Message>, b: seq<Message>, now: Timestamp)
    ensures DueOnly(a + b, now) == DueOnly(a, now) + DueOnly(b, now)
    decreases |a|
  {
    if |a| == 0 {
      assert a + b == b;
    } else {
      var ab := a + b;
      var rest := a[1..] + b;
      assert ab[0] == a[0] && ab[1..] == rest;
      var first := if IsDue(a[0], now) then [a[0]] else [];
      DueOnlyUnfold(ab, now);
      DueOnlyUnfold(a, now);
      DueOnlyAppend(a[1..], b, now);
      var x, y := DueOnly(a[1..], now), DueOnly(b, now);
      assert first + (x + y) == (first + x) + y;
    }
  }

  /** The mail for a sequence of messages, one envelope each, in order: the
      announcements the dispatch loop prints, one per due message. */
  function Envelopes(ms: seq<Message>): (r: seq<Envelope>)
    ensures |r| == |ms|
    ensures forall i :: 0 <= i < |ms| ==> r[i] == EnvelopeFor(ms[i])
  {
    if |ms| == 0 then [] else [EnvelopeFor(ms[0])] + Envelopes(ms[1..])
  }

  /** One iteration of the dispatch loop for snapshot message `m`. Every entry
      of the store either stays as it was or becomes `m` flagged as sent. */
  function Dispatch(store: Store, m: Message, now: Timestamp): (r: TickResult)
    ensures r.mail == if IsDue(m, now) then [EnvelopeFor(m)] else []
    ensures !IsDue(m, now) || m.id.None? ==> r.store == store
    ensures IsDue(m, now) && m.id.Some? ==> r.store == UpdateMessageAsSent(store, m).store
    ensures |r.store| == |store|
    ensures forall j :: 0 <= j < |store| ==>
      && r.store[j].id == store[j].id
      && (r.store[j] == store[j]
          || (IsDue(m, now) && m.id.Some? && m.id == store[j].id && r.store[j] == m.(send := Some(true))))
  {
    if m.sendAt.Some? then
      if m.sendAt.value <= now && m.send != Some(true) then
        var marked := if m.id.Some? then UpdateMessageAsSent(store, m).store else store;
        TickResult(marked, [EnvelopeFor(m)])
      else
        TickResult(store, [])
    else
      TickResult(store, [])
  }

  /** `send_scheduled_emails`: a fold of `Dispatch` over the snapshot, threading
      the live store. A tick never moves, adds or removes entries, never changes
      an id, and never clears a sent flag. */
  function Tick(store: Store, snapshot: seq<Message>, now: Timestamp): (r: TickResult)
    ensures |r.store| == |store|
    ensures forall j :: 0 <= j < |store| ==> r.store[j].id == store[j].id
    ensures forall j :: 0 <= j < |store| && IsSent(store[j]) ==> IsSent(r.store[j])
    decreases |snapshot|
  {
    if |snapshot| == 0 then TickResult(store, [])
    else
      var head := Dispatch(store, snapshot[0], now);
      var rest := Tick(head.store, snapshot[1..], now);
      TickResult(rest.store, head.mail + rest.mail)
  }

  // ---------------------------------------------------------------------------
  // What a tick announces
  // ---------------------------------------------------------------------------

  /** The mail of a tick is exactly one envelope per due snapshot message, in
      snapshot order; unscheduled, future and sent messages produce none. */
  lemma {:induction false} TickMail(store: Store, snapshot: seq<Message>, now: Timestamp)
    ensures Tick(store, snapshot, now).mail == Envelopes(DueOnly(snapshot, now))
    decreases |snapshot|
  {
    if |snapshot| > 0 {
      var head := Dispatch(store, snapshot[0], now);
      TickMail(head.store, snapshot[1..], now);
      var first := if IsDue(snapshot[0], now) then [snapshot[0]] else [];
      var later := DueOnly(snapshot[1..], now);
      assert Envelopes(first + later) == Envelopes(first) + Envelopes(later);
    }
  }

  // ---------------------------------------------------------------------------
  // Messages a tick ignores
  // ---------------------------------------------------------------------------

  /** A message that is not due has no effect anywhere in the snapshot. */
  lemma {:induction false} UndueMessageInvisible(store: Store, pre: seq<Message>, m: Message, post: seq<Message>, now: Timestamp)
    requires !IsDue(m, now)
    ensures Tick(store, pre + [m] + post, now) == Tick(store, pre + post, now)
    decreases |pre|
  {
    if |pre| == 0 {
      assert pre + [m] + post == [m] + post;
      assert ([m] + post)[1..] == post;
      assert pre + post == post;
    } else {
      var head := Dispatch(store, pre[0], now);
      UndueMessageInvisible(head.store, pre[1..], m, post, now);
      assert (pre + [m] + post)[1..] == pre[1..] + [m] + post;
      assert (pre + post)[1..] == pre[1..] + post;
    }
  }

  /** A due message without an id is announced but never changes the store. */
  lemma {:induction false} UnidentifiedMessageLeavesStore(store: Store, pre: seq<Message>, m: Message, post: seq<Message>, now: Timestamp)
    requires m.id.None?
    ensures Tick(store, pre + [m] + post, now).store == Tick(store, pre + post, now).store
    decreases |pre|
  {
    if |pre| == 0 {
      assert pre + [m] + post == [m] + post;
      assert ([m] + post)[1..] == post;
      assert pre + post == post;
    } else {
      var head := Dispatch(store, pre[0], now);
      UnidentifiedMessageLeavesStore(head.store, pre[1..], m, post, now);
      assert (pre + [m] + post)[1..] == pre[1..] + [m] + post;
      assert (pre + post)[1..] == pre[1..] + post;
    }
  }

  /** A message without a send time is ignored by every tick, however late the clock. */
  lemma UnscheduledNeverDispatched(store: Store, pre: seq<Message>, m: Message, post: seq<Message>)
    requires m.sendAt.None?
    ensures forall now :: Tick(store, pre + [m] + post, now) == Tick(store, pre + post, now)
  {
    forall now {
      UndueMessageInvisible(store, pre, m, post, now);
    }
  }

  /** A message flagged as sent is never announced or re-marked again. */
  lemma SentNeverRedispatched(store: Store, pre: seq<Message>, m: Message, post: seq<Message>)
    requires IsSent(m)
    ensures forall now :: Tick(store, pre + [m] + post, now) == Tick(store, pre + post, now)
  {
    forall now {
      UndueMessageInvisible(store, pre, m, post, now);
    }
  }

  /** A snapshot in which nothing is due leaves the store alone and sends nothing. */
  lemma {:induction false} NothingDueIsNoOp(store: Store, snapshot: seq<Message>, now: Timestamp)
    requires forall i :: 0 <= i < |snapshot| ==> !IsDue(snapshot[i], now)
    ensures Tick(store, snapshot, now) == TickResult(store, [])
    decreases |snapshot|
  {
    if |snapshot| > 0 {
      assert forall i :: 0 <= i < |snapshot| - 1 ==> snapshot[1..][i] == snapshot[i + 1];
      NothingDueIsNoOp(store, snapshot[1..], now);
    }
  }

  /** A snapshot whose due messages all lack an id leaves the store alone. */
  lemma {:induction false} NothingMarkableKeepsStore(store: Store, snapshot: seq<Message>, now: Timestamp)
    requires forall i :: 0 <= i < |snapshot| ==> !IsDue(snapshot[i], now) || snapshot[i].id.None?
    ensures Tick(store, snapshot, now).store == store
    decreases |snapshot|
  {
    if |snapshot| > 0 {
      assert forall i :: 0 <= i < |snapshot| - 1 ==> snapshot[1..][i] == snapshot[i + 1];
      NothingMarkableKeepsStore(store, snapshot[1..], now);
    }
  }

  // ---------------------------------------------------------------------------
  // What a tick writes
  // ---------------------------------------------------------------------------

  /** After a tick every entry is either as it was, or is a due snapshot message
      carrying the same id, flagged as sent. */
  lemma {:induction false} TickWritesOnlyDueCopies(store: Store, snapshot: seq<Message>, now: Timestamp)
    ensures var r := Tick(store, snapshot, now);
      forall j :: 0 <= j < |store| ==>
        || r.store[j] == store[j]
        || exists i :: && 0 <= i < |snapshot|
                       && IsDue(snapshot[i], now)
                       && snapshot[i].id.Some?
                       && snapshot[i].id == store[j].id
                       && r.store[j] == snapshot[i].(send := Some(true))
    decreases |snapshot|
  {
    if |snapshot| > 0 {
      var r := Tick(store, snapshot, now);
      var head := Dispatch(store, snapshot[0], now);
      TickWritesOnlyDueCopies(head.store, snapshot[1..], now);
      forall j | 0 <= j < |store|
        ensures || r.store[j] == store[j]
                || exists i :: && 0 <= i < |snapshot|
                               && IsDue(snapshot[i], now)
                               && snapshot[i].id.Some?
                               && snapshot[i].id == store[j].id
                               && r.store[j] == snapshot[i].(send := Some(true))
      {
        if r.store[j] != head.store[j] {
          var i :| && 0 <= i < |snapshot[1..]|
                   && IsDue(snapshot[1..][i], now)
                   && snapshot[1..][i].id.Some?
                   && snapshot[1..][i].id == head.store[j].id
                   && r.store[j] == snapshot[1..][i].(send := Some(true));
          assert snapshot[1..][i] == snapshot[i + 1];
        } else if head.store[j] != store[j] {
          assert snapshot[0].id == store[j].id;
        }
      }
    }
  }

  /** Entries whose id no due snapshot message carries are untouched by a tick. */
  lemma TickLeavesOthersUnchanged(store: Store, snapshot: seq<Message>, now: Timestamp)
    ensures var r := Tick(store, snapshot, now);
      forall j :: 0 <= j < |store| ==>
        (forall i :: 0 <= i < |snapshot| && IsDue(snapshot[i], now) && snapshot[i].id.Some? ==>
           snapshot[i].id != store[j].id)
        ==> r.store[j] == store[j]
  {
    TickWritesOnlyDueCopies(store, snapshot, now);
  }

  /** The first step of a tick: when the head of the snapshot is due and has an
      id that the tick's result finds at `j`, the store after that step holds
      the head flagged as sent at `j`. */
  lemma MarkedAtFirstMatch(store: Store, snapshot: seq<Message>, now: Timestamp, j: int)
    requires |snapshot| > 0 && IsDue(snapshot[0], now) && snapshot[0].id.Some?
    requires IsFirstMatch(Tick(store, snapshot, now).store, snapshot[0].id.value, j)
    ensures Dispatch(store, snapshot[0], now).store[j] == snapshot[0].(send := Some(true))
  {
    var key := snapshot[0].id.value;
    var head := Dispatch(store, snapshot[0], now);
    var r := Tick(store, snapshot, now);
    assert forall p :: 0 <= p < |store| ==> r.store[p].id == head.store[p].id == store[p].id;
    SameIdsSameMatches(r.store, store, key, j);
    var mark := UpdateMessageAsSent(store, snapshot[0]);
    assert mark.result.Some?;
    var k :| IsFirstMatch(store, key, k) && mark.store == store[k := mark.result.value];
    FirstMatchUnique(store, key, j, k);
  }

  /** After a tick, the entry a lookup finds for the id of any due snapshot
      message is flagged as sent. */
  lemma {:induction false} TickMarksDue(store: Store, snapshot: seq<Message>, now: Timestamp)
    ensures var r := Tick(store, snapshot, now);
      forall i, j :: && 0 <= i < |snapshot|
                     && IsDue(snapshot[i], now)
                     && snapshot[i].id.Some?
                     && IsFirstMatch(r.store, snapshot[i].id.value, j)
                     ==> IsSent(r.store[j])
    decreases |snapshot|
  {
    if |snapshot| > 0 {
      var r := Tick(store, snapshot, now);
      var head := Dispatch(store, snapshot[0], now);
      TickMarksDue(head.store, snapshot[1..], now);
      forall i, j | && 0 <= i < |snapshot|
                    && IsDue(snapshot[i], now)
                    && snapshot[i].id.Some?
                    && IsFirstMatch(r.store, snapshot[i].id.value, j)
        ensures IsSent(r.store[j])
      {
        assert r.store == Tick(head.store, snapshot[1..], now).store;
        if i == 0 {
          MarkedAtFirstMatch(store, snapshot, now, j);
          assert IsSent(head.store[j]);
        } else {
          assert snapshot[1..][i - 1] == snapshot[i];
        }
      }
    }
  }

  /** When no two snapshot messages share an id, the entry a lookup finds for a
      due snapshot message's id is exactly that snapshot message flagged as
      sent: the snapshot copy replaces whatever the store held. */
  lemma {:induction false} TickWritesSnapshotCopy(store: Store, snapshot: seq<Message>, now: Timestamp)
    requires DistinctIds(snapshot)
    ensures var r := Tick(store, snapshot, now);
      forall i, j :: && 0 <= i < |snapshot|
                     && IsDue(snapshot[i], now)
                     && snapshot[i].id.Some?
                     && IsFirstMatch(r.store, snapshot[i].id.value, j)
                     ==> r.store[j] == snapshot[i].(send := Some(true))
    decreases |snapshot|
  {
    if |snapshot| > 0 {
      var r := Tick(store, snapshot, now);
      var head := Dispatch(store, snapshot[0], now);
      var tail := snapshot[1..];
      assert forall i :: 0 <= i < |tail| ==> tail[i] == snapshot[i + 1];
      TickWritesSnapshotCopy(head.store, tail, now);
      forall i, j | && 0 <= i < |snapshot|
                    && IsDue(snapshot[i], now)
                    && snapshot[i].id.Some?
                    && IsFirstMatch(r.store, snapshot[i].id.value, j)
        ensures r.store[j] == snapshot[i].(send := Some(true))
      {
        assert r.store == Tick(head.store, tail, now).store;
        if i == 0 {
          MarkedAtFirstMatch(store, snapshot, now, j);
          TickLeavesOthersUnchanged(head.store, tail, now);
          assert forall i' :: 0 <= i' < |tail| && tail[i'].id.Some? ==> tail[i'].id != snapshot[0].id;
        } else {
          assert tail[i - 1] == snapshot[i];
        }
      }
    }
  }

  // ---------------------------------------------------------------------------
  // A tick over a fresh snapshot of its own store
  // ---------------------------------------------------------------------------

  /** The periodic task snapshots the store and dispatches over that snapshot.
      With distinct ids the result is pointwise: each due entry with an id is
      flagged as sent and every other entry is unchanged. */
  lemma TickOnOwnSnapshot(store: Store, now: Timestamp)
    requires DistinctIds(store)
    ensures var r := Tick(store, GetMessages(store).result, now);
      && |r.store| == |store|
      && (forall j :: 0 <= j < |store| ==>
            r.store[j] == (if IsDue(store[j], now) && store[j].id.Some? then store[j].(send := Some(true)) else store[j]))
      && r.mail == Envelopes(DueOnly(store, now))
  {
    var r := Tick(store, store, now);
    TickMail(store, store, now);
    TickWritesSnapshotCopy(store, store, now);
    TickLeavesOthersUnchanged(store, store, now);
    forall j | 0 <= j < |store|
      ensures r.store[j] == (if IsDue(store[j], now) && store[j].id.Some? then store[j].(send := Some(true)) else store[j])
    {
      if IsDue(store[j], now) && store[j].id.Some? {
        assert IsFirstMatch(store, store[j].id.value, j);
        SameIdsSameMatches(r.store, store, store[j].id.value, j);
      }
    }
  }

  /** After a tick over its own snapshot, no entry with an id is still due. */
  lemma OwnSnapshotLeavesNothingMarkable(store: Store, now: Timestamp)
    requires DistinctIds(store)
    ensures forall j :: 0 <= j < |Tick(store, store, now).store| ==>
      !IsDue(Tick(store, store, now).store[j], now) || Tick(store, store, now).store[j].id.None?
  {
    var first := Tick(store, store, now);
    TickOnOwnSnapshot(store, now);
    forall j | 0 <= j < |first.store|
      ensures !IsDue(first.store[j], now) || first.store[j].id.None?
    {
      assert first.store[j].id == store[j].id;
    }
  }

  /** A second tick at the same instant over a fresh snapshot changes nothing in
      the store; when every entry has an id it announces nothing either. */
  lemma TickIdempotent(store: Store, now: Timestamp)
    requires DistinctIds(store)
    ensures var first := Tick(store, store, now);
      Tick(first.store, first.store, now).store == first.store
    ensures AllIdsPresent(store) ==>
      var first := Tick(store, store, now);
      Tick(first.store, first.store, now) == TickResult(first.store, [])
  {
    var first := Tick(store, store, now);
    OwnSnapshotLeavesNothingMarkable(store, now);
    assert forall j :: 0 <= j < |first.store| ==> !IsDue(first.store[j], now) || first.store[j].id.None?;
    NothingMarkableKeepsStore(first.store, first.store, now);
    if AllIdsPresent(store) {
      assert forall j :: 0 <= j < |first.store| ==> first.store[j].id == store[j].id;
      NothingDueIsNoOp(first.store, first.store, now);
    }
  }

  /** A tick keeps the store's id invariant. */
  lemma TickPreservesValidIds(store: Store, snapshot: seq<Message>, now: Timestamp)
    requires ValidIds(store)
    ensures ValidIds(Tick(store, snapshot, now).store)
  {
  }

  /** The snapshot, not the live entry, is what gets written back: an update that
      lands between snapshot and tick is overwritten for a due message, so the
      entry ends up as the pre-update snapshot flagged as sent. */
  lemma TickOverwritesUpdateSinceSnapshot(store: Store, i: nat, draft: Message, now: Timestamp)
    requires ValidIds(store)
    requires i < |store| && IsDue(store[i], now)
    ensures var u := UpdateMessageById(store, store[i].id.value, draft);
      Tick(u.store, store, now).store[i] == store[i].(send := Some(true))
  {
    var key := store[i].id.value;
    var u := UpdateMessageById(store, key, draft);
    var r := Tick(u.store, store, now);
    assert IsFirstMatch(store, key, i);
    SameIdsSameMatches(r.store, store, key, i);
    TickWritesSnapshotCopy(u.store, store, now);
  }
}

=== FILE: message.dfy ===
/** The single entity of the service: a scheduled e-mail message. */
module Messages {
  import opened Options

  /** Instants are compared only with `<=`, so an integer stands for a UTC date-time. */
  type Timestamp = int

  /** Store-assigned identifiers (UUID strings in the service). */
  type Id = string

  /** Only `email` is mandatory; every other field may be absent. `send` is
      three-valued: `None` and `Some(false)` both mean "not sent yet". */
  datatype Message = Message(
    id: Option<Id>,
    email: string,
    messageBody: Option<string>,
    createdAt: Option<Timestamp>,
    sendAt: Option<Timestamp>,
    send: Option<bool>)

  /** Only an explicit `Some(true)` marks a message as sent. */
  predicate IsSent(m: Message) {
    m.send == Some(true)
  }

  /** The comparison every id-based store lookup makes: `message.id == Some(key)`.
      A message without an id never satisfies it. */
  predicate HasId(m: Message, key: Id) {
    m.id == Some(key)
  }
}

=== FILE: options.dfy ===
/** Optional values and fallible results, as the service's record and store use them. */
module Options {

  /** Rust's `Option<T>`. */
  datatype Option<T> = None | Some(value: T) {

    /** The wrapped value, or `default` when absent (`map_or(default, ..)`). */
    function GetOr(default: T): T {
      match this
      case Some(v) => v
      case None => default
    }
  }

  /** Rust's `Result<T, std::fmt::Error>`: the error carries no data. */
  datatype Result<T> = Ok(value: T) | Err
}
